=== FILE: README.md ===
# Composition resolution and migration, in Dafny

A model of three pieces of Crossplane's composition engine, with proofs of
what they promise:

- **The patch-and-transform converter** (`crank beta convert
  pipeline-composition`). It rewrites a Composition written for the built-in
  patch-and-transform engine into a Composition whose one pipeline step runs
  the `function-patch-and-transform` composition function. The legacy patch
  sets, resource templates and environment patches become that step's input
  document. Along the way the converter does the following:
  - it fills in what the function requires but the built-in engine left
    optional: patch types, transform discriminants, connection-detail types
    and names, and names for anonymous templates (`resource-<index>`);
  - it translates each patch's legacy merge options into the function's
    `toFieldPath` policy.
- **The fallback composer** and its trigger. Per request, the trigger decides
  whether to use the fallback composer instead of the preferred one. It asks
  for the fallback when the revision has an anonymous resource template, or
  when the composite resource already references a composed resource that
  was created without the template-name annotation.
- **`Composition.GetValidationMode`**, which reads the schema-aware
  validation mode from an annotation.

Modules, one file each:

| module | file | models |
|---|---|---|
| `Wrappers` | wrappers.dfy | nil pointers (`Option`) and `(value, error)` results |
| `Errors` | errors.dfy | the errors produced or wrapped |
| `Types` | types.dfy | the Composition API types read or written, and the function's input document |
| `Decimal` | decimal.dfy | `strings.ToLower(fmt.Sprintf("resource-%d", idx))` |
| `Converter` | converter.dfy | `convertPnTToPipeline` and its helpers |
| `ConverterProperties` | converter_properties.dfy | properties that relate several calls of the converter |
| `Fallback` | fallback.dfy | `FallbackComposer.Compose` and `FallBackForAnonymousTemplates` |
| `ValidationMode` | validation_mode.dfy | `Composition.GetValidationMode` |

Modelling choices:

- **Merge behaviour.** The policy migration is stated through a small model
  of merge behaviour: replace, or merge objects with or without keeping
  existing map values and appending arrays. The migrated policy has the same
  behaviour as the legacy policy (`MigratedPolicyBehaviour` equals
  `LegacyPolicyBehaviour`). This also fixes the truth table, because each
  `toFieldPath` value has a distinct behaviour.
- **Discriminant inference.** Inference is stated as "the highest-priority
  populated option", using an explicit rank for each option. A transform's
  discriminant is inferred String first, then Math. Math sub-types go
  ClampMin, ClampMax, Multiply. String sub-types go Format, Convert, Regexp.
  Connection-detail types go Value, FromFieldPath, FromConnectionSecretKey.
- **Connection-detail type is always recomputed.** `setMissingConnectionDetailFields`
  builds its result without copying the input's `Type`. So the type is always
  derived from the populated sources, whatever the input held. The model
  does the same (`ConverterProperties.ConnectionDetailTypeIgnored`).
- **Environment patches.** `v1.EnvironmentPatch` has the same fields as
  `v1.Patch`, except that it has no patch-set name. Both are the `Patch`
  datatype here. By convention an environment patch has `patchSetName`
  `None`, but the model does not check this: an environment patch that
  carries a name is converted like any other, and its name is carried along.
  The two identical Go loops (`migratePatches`/`migrateEnvPatches` and
  `setMissingPatchFields`/`setMissingEnvironmentPatchFields`) are therefore
  one member each.
- **Slices.** Go's nil and empty slices are both `[]`.
- **Collaborators.** Composers, triggers and the store's `Get` are function
  values. A lookup answers `Found(annotations)`, `NotFound` or
  `GetFailed(error)`.
- **Validation-mode strings.** The annotation key and the spellings `strict`
  and `loose` come from `composition_types.go`, which is not part of this
  model. They follow the upstream definitions.

## Model

| member | source | states |
|---|---|---|
| Converter.ConvertPnTToPipeline | cmd/crank/beta/convert/pipelinecomposition/converter.go:44-115 | A nil composition fails with "provided Composition is empty". A pipeline-mode composition comes back unchanged. Any other becomes pipeline mode with no legacy sections left. Type and object metadata are kept, and the creation timestamp is stamped only when it is unset. The composite type, the secret namespace and the store reference are copied. The environment keeps everything except its patches. The result has exactly one step, "patch-and-transform", running the given function, or "function-patch-and-transform" when the given name is empty. Its document has the function's apiVersion and kind, has an environment exactly when there are environment patches, and has one entry per patch set and per template. |
| Converter.FunctionRefName | cmd/crank/beta/convert/pipelinecomposition/converter.go:97-101 | The step's function is the caller's name when one is given, and "function-patch-and-transform" when the caller passes the empty name. |
| Converter.ProcessFunctionInput | cmd/crank/beta/convert/pipelinecomposition/converter.go:119-159 | The document has apiVersion pt.fn.crossplane.io/v1beta1 and kind Resources. Its environment exists exactly when the input has environment patches. Each section is first completed, then has its policies migrated. |
| Converter.MigratePatchPolicyInResources | cmd/crank/beta/convert/pipelinecomposition/converter.go:161-176 | Length and order are preserved. Each template keeps every field except its own patches, which are emptied. Its migrated patches sit beside it. |
| Converter.MigratePatchPolicyInPatchSets | cmd/crank/beta/convert/pipelinecomposition/converter.go:178-191 | Length and order are preserved. Names are kept and each set's patches are migrated. |
| Converter.MigratePatchPolicyInEnvironment | cmd/crank/beta/convert/pipelinecomposition/converter.go:195-203 | The result is nil unless the configuration exists and has at least one patch. Otherwise it holds the migrated patches. |
| Converter.MigratePatches | cmd/crank/beta/convert/pipelinecomposition/converter.go:205-245 | Length and order are preserved. Every migrated patch's embedded legacy policy is nil. Every migrated policy behaves as the legacy policy did. |
| Converter.MigratePatch | cmd/crank/beta/convert/pipelinecomposition/converter.go:208-221 | The legacy policy is cleared and nothing else in the patch changes. No legacy policy gives no migrated policy. The migrated policy behaves as the legacy policy did. |
| Converter.MigratePatchPolicy | cmd/crank/beta/convert/pipelinecomposition/converter.go:247-260 | The result is nil exactly when neither a from-field-path policy nor merge options are set. The from-field-path policy is carried over as written. The behaviour is preserved. |
| Converter.MigrateMergeOptions | cmd/crank/beta/convert/pipelinecomposition/converter.go:265-296 | No options gives nil (Replace). Otherwise the policy merges exactly as the options did: it keeps map values iff keepMapValues is true, and appends arrays iff appendSlice is true. |
| Converter.GetMathTransformType | cmd/crank/beta/convert/pipelinecomposition/converter.go:377-389 | An explicit sub-type is kept. Otherwise the result is the highest-priority populated option (ClampMin > ClampMax > Multiply), or unset when none is populated. |
| Converter.GetStringTransformType | cmd/crank/beta/convert/pipelinecomposition/converter.go:391-403 | An explicit sub-type is kept. Otherwise the result is the highest-priority populated option (Format > Convert > Regexp), or unset when none is populated. |
| Converter.SetTransformTypeRequiredFields | cmd/crank/beta/convert/pipelinecomposition/converter.go:358-375 | An explicit type is kept. An empty type becomes String iff a string sub-object is set, becomes Math iff only a math sub-object is set, and otherwise stays empty. A Math or String transform gets its inferred sub-type. Nothing but the discriminants changes. |
| Converter.SetMissingTransforms | cmd/crank/beta/convert/pipelinecomposition/converter.go:314-318 | Length and order are preserved, and each transform is completed in place. |
| Converter.SetMissingPatchFields | cmd/crank/beta/convert/pipelinecomposition/converter.go:307-335 | An empty patch type becomes FromCompositeFieldPath and any other type is kept. Every transform is completed in place. Nothing else changes. |
| Converter.SetMissingPatches | cmd/crank/beta/convert/pipelinecomposition/converter.go:348-352 | Length and order are preserved, and each patch is completed in place. |
| Converter.SetMissingPatchSetFields | cmd/crank/beta/convert/pipelinecomposition/converter.go:298-305 | The name is kept and the patches are completed. |
| Converter.SetMissingPatchSets | cmd/crank/beta/convert/pipelinecomposition/converter.go:133-138 | Length and order are preserved, and each set is completed in place. |
| Converter.SetMissingConnectionDetailFields | cmd/crank/beta/convert/pipelinecomposition/converter.go:405-433 | The sources are kept. The type is unset iff no source is set, and is otherwise the highest-priority set source (Value > FromFieldPath > FromConnectionSecretKey). A given name is kept. A missing name becomes the secret key only for secret-key details, and stays nil otherwise. |
| Converter.SetMissingConnectionDetails | cmd/crank/beta/convert/pipelinecomposition/converter.go:342-346 | Length and order are preserved, and each detail is completed in place. |
| Converter.SetMissingResourceFields | cmd/crank/beta/convert/pipelinecomposition/converter.go:337-354 | The result is never anonymous. An anonymous template is named resource-idx and a named one keeps its name. The base and readiness checks are untouched. The connection details and patches are completed. |
| Converter.SetMissingResources | cmd/crank/beta/convert/pipelinecomposition/converter.go:140-145 | Length and order are preserved. The template at position i is completed as the i-th, and no result is anonymous. |
| Decimal.NatToString | cmd/crank/beta/convert/pipelinecomposition/converter.go:339 | The rendered index is a non-empty digit string with no leading zero. |
| Decimal.ParseNatToString | cmd/crank/beta/convert/pipelinecomposition/converter.go:339 | Reading back a rendered index gives the index. |
| Decimal.NatToStringInjective | cmd/crank/beta/convert/pipelinecomposition/converter.go:339 | Different indexes render differently. |
| Decimal.ToLower | cmd/crank/beta/convert/pipelinecomposition/converter.go:339 | Lower-casing keeps the length, leaves no upper-case letter, moves each upper-case letter to its lower-case partner in place, and keeps every other character. |
| Decimal.ToLowerIdentity | cmd/crank/beta/convert/pipelinecomposition/converter.go:339 | Lower-casing leaves a string without upper-case letters unchanged. |
| Decimal.SyntheticName | cmd/crank/beta/convert/pipelinecomposition/converter.go:339 | The synthetic name is "resource-" followed by the decimal index, and is never empty. |
| Decimal.SyntheticNamesDistinct | cmd/crank/beta/convert/pipelinecomposition/converter.go:337-340 | Different positions get different synthetic names. |
| ConverterProperties.MergeOptionsTruthTable | cmd/crank/beta/convert/pipelinecomposition/converter.go:265-288 | The four rows of the truth table, plus nil options giving nil. |
| ConverterProperties.NilOptionsDifferFromAllFalse | cmd/crank/beta/convert/pipelinecomposition/converter.go:266-287 | Absent options and options with both flags nil or false migrate differently. |
| ConverterProperties.LegacyOptionsFor | cmd/crank/beta/convert/pipelinecomposition/converter.go:270-287 | Every toFieldPath policy is the migration of some legacy options. |
| ConverterProperties.MergeOptionsOnlyTruthMatters | cmd/crank/beta/convert/pipelinecomposition/converter.go:290-296 | Inside an options object, nil and false are the same. |
| ConverterProperties.ConvertIdempotent | cmd/crank/beta/convert/pipelinecomposition/converter.go:49-52 | Converting a converted composition returns it unchanged, for any function name and clock reading. |
| ConverterProperties.ConvertNamesTemplates | cmd/crank/beta/convert/pipelinecomposition/converter.go:140-145 | Document template i is template i of the composition. It is named resource-i if it was anonymous and keeps its name otherwise. It is never anonymous, and its own patch list is empty. |
| ConverterProperties.ConvertedAnonymousNamesDistinct | cmd/crank/beta/convert/pipelinecomposition/converter.go:337-340 | Two anonymous templates never get the same name. |
| ConverterProperties.ConvertMigratesResourcePatches | cmd/crank/beta/convert/pipelinecomposition/converter.go:161-176 | Patch j of template i lands at the same place in the document as the legacy patch completed and with its legacy policy cleared: an empty type becomes FromCompositeFieldPath, the transforms are completed, and every other field is kept. Its migrated policy behaves the same as the legacy one. |
| ConverterProperties.ConvertMigratesPatchSets | cmd/crank/beta/convert/pipelinecomposition/converter.go:178-191 | Patch j of patch set i lands at the same place under the same set name as the legacy patch completed and with its legacy policy cleared. Its migrated policy behaves the same as the legacy one. |
| ConverterProperties.ConvertSplitsEnvironment | cmd/crank/beta/convert/pipelinecomposition/converter.go:77-88 | With environment patches, the document gets all of them in order: entry j is legacy patch j completed and with its legacy policy cleared, and its migrated policy behaves the same as the legacy one. |
| ConverterProperties.TransformCompletionIdempotent | cmd/crank/beta/convert/pipelinecomposition/converter.go:358-375 | Completing a transform twice is completing it once. |
| ConverterProperties.TransformsCompletionIdempotent | cmd/crank/beta/convert/pipelinecomposition/converter.go:314-318 | The same for a list of transforms. |
| ConverterProperties.PatchCompletionIdempotent | cmd/crank/beta/convert/pipelinecomposition/converter.go:322-335 | Completing a patch twice is completing it once. |
| ConverterProperties.PatchesCompletionIdempotent | cmd/crank/beta/convert/pipelinecomposition/converter.go:348-352 | The same for a list of patches. |
| ConverterProperties.ConnectionDetailCompletionIdempotent | cmd/crank/beta/convert/pipelinecomposition/converter.go:405-433 | Completing a connection detail twice is completing it once. |
| ConverterProperties.ConnectionDetailTypeIgnored | cmd/crank/beta/convert/pipelinecomposition/converter.go:407-423 | The input's connection-detail type has no influence on the result. |
| ConverterProperties.ConnectionDetailsCompletionIdempotent | cmd/crank/beta/convert/pipelinecomposition/converter.go:342-346 | The same for a list of connection details. |
| ConverterProperties.ResourceCompletionIdempotent | cmd/crank/beta/convert/pipelinecomposition/converter.go:337-354 | Completing a template twice at the same position is completing it once. |
| ConverterProperties.ConvertedCompositionNeverAnonymous | cmd/crank/beta/convert/pipelinecomposition/converter.go:59-67 | A converted composition has no templates of its own, so its revisions leave the fallback decision to the XR's references alone. |
| Fallback.Compose | internal/controller/apiextensions/composite/composition_fallback_test.go:72-120 | A trigger error (even alongside true) gives an empty result and that error wrapped with errTriggerFn. Otherwise (true, nil) returns the fallback composer's outcome verbatim, and (false, nil) returns the preferred composer's. |
| Fallback.ComposeIgnoresFallbackComposer | internal/controller/apiextensions/composite/composition_fallback_test.go:72-89 | When not falling back, the fallback composer has no influence on the outcome. |
| Fallback.ComposeIgnoresPreferredComposer | internal/controller/apiextensions/composite/composition_fallback_test.go:90-107 | When falling back, the preferred composer has no influence on the outcome. |
| Fallback.TriggerErrorShortCircuits | internal/controller/apiextensions/composite/composition_fallback_test.go:108-120 | With a trigger error, neither composer influences the outcome, the result is empty and an error is returned. |
| Fallback.CheckReferences | internal/controller/apiextensions/composite/composition_fallback_test.go:179-224 | If every lookup is not-found or finds the template-name annotation, the answer is (false, nil). Otherwise the first reference that is neither decides. A failed lookup gives (false, error wrapped with errGetComposed). A resource found without the annotation gives (true, nil). |
| Fallback.FallBackForAnonymousTemplates | internal/controller/apiextensions/composite/composition_fallback_test.go:162-257 | Any anonymous template gives (true, nil). Otherwise the references decide as above, so no templates and no references give (false, nil). An error never comes with true. |
| Fallback.FallbackHasCause | internal/controller/apiextensions/composite/composition_fallback_test.go:162-203 | A fallback always has a cause: an anonymous template, or a referenced resource found without the annotation before any lookup failed. |
| Fallback.ErrorHasCause | internal/controller/apiextensions/composite/composition_fallback_test.go:204-224 | An error always comes from a failed lookup that was the first to stop the scan, and never when a template is anonymous. |
| Fallback.AnonymousTemplateComposesWithFallback | internal/controller/apiextensions/composite/composition_fallback_test.go:162-178 | A fallback composer wired to the anonymous-template trigger returns the fallback composer's outcome for a revision with an anonymous template, whatever the store holds. |
| Fallback.FailedLookupComposesToError | internal/controller/apiextensions/composite/composition_fallback_test.go:204-224 | With no anonymous template, the first failed lookup reaches the caller of the wired composer wrapped with errGetComposed and then errTriggerFn, together with the empty result. |
| ValidationMode.GetValidationMode | apis/apiextensions/v1/composition_webhooks_test.go:26-65 | No annotation gives Loose and no error. A recognised value gives that mode and no error. Any other value gives the zero mode and an error naming the value. |
| ValidationMode.AnnotateThenRead | apis/apiextensions/v1/composition_webhooks_test.go:37-50 | Annotating a mode's spelling and reading it back gives that mode without error. |

## Left out

- The creation timestamp comes from `time.Now()` in the source. Here it is the parameter `now`. The source also writes the stamped timestamp back into its input's metadata; that in-place write is not modelled.
- The `runtime.RawExtension` and `unstructured.Unstructured` wrapping of the input document is not modelled; the document is a plain datatype. `DeepCopy` aliasing is not modelled either.
- `setTransformTypeRequiredFields` writes the inferred sub-type through the shared `Math`/`String` pointer, which also changes the caller's transform. The model has value semantics only.
- The source panics on a nil pointer when a transform's type is explicitly Math or String but that sub-object is nil. The model excludes such input with the precondition `Transform.Dereferenceable` instead of modelling the crash.
- Map, match and convert transforms, a template's base, readiness checks, combine specifications and environment sources are carried as raw strings. Only their being copied unchanged is modelled.
- `Decimal.ToLower` lower-cases ASCII letters only, because it is only applied to "resource-" and a decimal number.
- The composers' own resolution, contexts, cancellation, concurrency and the real API client are not modelled. The store's `Get` is a pure function value.
- Fallback.CheckReferences: a reference whose resource is not found is skipped, as in the upstream trigger. No test case in composition_fallback_test.go covers that branch, and no property here relies on it beyond the scan's own description.
- The message texts of `errTriggerFn`, `errGetComposed` and `errFmtInvalidCompositionValidationMode` are defined in files that are not part of this model. Errors are structured values: the cause, the wrapping context, and the offending value.
- ValidationMode.GetValidationMode: accepting an explicit `loose` annotation follows the upstream definition. No test case in composition_webhooks_test.go covers it.

=== FILE: converter.dfy ===
/** The patch-and-transform to pipeline converter
    (`cmd/crank/beta/convert/pipelinecomposition/converter.go`): it rewrites
    a Composition written for the built-in patch-and-transform engine into a
    Composition with a one-step function pipeline whose step runs the
    patch-and-transform function on a migrated input document.

    The conversion is two passes over the legacy sections.  The first fills
    in what the function requires but the built-in engine left optional
    (patch types, transform discriminants, connection-detail types and
    names, template names); the second moves each patch's merge options to
    the function's `toFieldPath` policy. */
module Converter {
  import opened Wrappers
  import opened Errors
  import opened Types
  import Decimal

  const DefaultFunctionRefName: string := "function-patch-and-transform"
  const ErrNilComposition: string := "provided Composition is empty"
  const PipelineStepName: string := "patch-and-transform"
  const InputApiVersion: string := "pt.fn.crossplane.io/v1beta1"
  const InputKind: string := "Resources"

  // =====================================================================
  // Merge semantics, used to state what the policy migration preserves

  /** How a patch combines its value with one already at the target path:
      replace it, or merge objects (keeping or overwriting existing map
      values) and optionally append to arrays. */
  datatype MergeBehaviour = Replace | Merge(keepMapValues: bool, appendArrays: bool)

  /** The complete effect of a patch policy: the from-field-path policy
      (Optional when unset) and the merge behaviour. */
  datatype PolicyBehaviour = PolicyBehaviour(fromFieldPath: FromFieldPathPolicy, merge: MergeBehaviour)

  predicate IsTrue(b: Option<bool>) {
    b == Some(true)
  }

  predicate IsNilOrFalse(b: Option<bool>) {
    b != Some(true)
  }

  /** The built-in engine's reading of merge options: none at all means
      replace; otherwise each flag is on only when explicitly true. */
  function LegacyMergeBehaviour(mo: Option<MergeOptions>): MergeBehaviour {
    match mo
    case None => Replace
    case Some(o) => Merge(IsTrue(o.keepMapValues), IsTrue(o.appendSlice))
  }

  /** The function's reading of a `toFieldPath` policy; nil means Replace. */
  function ToFieldPathBehaviour(p: Option<ToFieldPathPolicy>): MergeBehaviour {
    match p
    case None => Replace
    case Some(MergeObjects) => Merge(true, false)
    case Some(MergeObjectsAppendArrays) => Merge(true, true)
    case Some(ForceMergeObjects) => Merge(false, false)
    case Some(ForceMergeObjectsAppendArrays) => Merge(false, true)
  }

  function LegacyPolicyBehaviour(p: Option<PatchPolicy>): PolicyBehaviour {
    match p
    case None => PolicyBehaviour(FromFieldPathOptional, Replace)
    case Some(pp) => PolicyBehaviour(pp.fromFieldPath.GetOr(FromFieldPathOptional), LegacyMergeBehaviour(pp.mergeOptions))
  }

  function MigratedPolicyBehaviour(p: Option<InputPatchPolicy>): PolicyBehaviour {
    match p
    case None => PolicyBehaviour(FromFieldPathOptional, Replace)
    case Some(pp) => PolicyBehaviour(pp.fromFieldPath.GetOr(FromFieldPathOptional), ToFieldPathBehaviour(pp.toFieldPath))
  }

  // =====================================================================
  // Policy migration

  /** `migrateMergeOptions`: the `toFieldPath` policy that merges exactly as
      the legacy merge options did.  Since every policy value has its own
      behaviour, this determines the result. */
  function MigrateMergeOptions(mo: Option<MergeOptions>): (r: Option<ToFieldPathPolicy>)
    ensures r.None? <==> mo.None?
    ensures ToFieldPathBehaviour(r) == LegacyMergeBehaviour(mo)
  {
    match mo
    case None => None
    case Some(o) =>
      if IsTrue(o.keepMapValues) then
        if IsNilOrFalse(o.appendSlice) then Some(MergeObjects) else Some(MergeObjectsAppendArrays)
      else if IsTrue(o.appendSlice) then Some(ForceMergeObjectsAppendArrays)
      else Some(ForceMergeObjects)
  }

  /** `migratePatchPolicy`: a policy with the same effect in the function's
      format, or nil when it would only hold defaults. */
  function MigratePatchPolicy(policy: PatchPolicy): (r: Option<InputPatchPolicy>)
    ensures r.None? <==> policy.fromFieldPath.None? && policy.mergeOptions.None?
    ensures r.Some? ==> r.value.fromFieldPath == policy.fromFieldPath
    ensures MigratedPolicyBehaviour(r) == LegacyPolicyBehaviour(Some(policy))
  {
    var to := MigrateMergeOptions(policy.mergeOptions);
    if to.None? && policy.fromFieldPath.None? then None
    else Some(InputPatchPolicy(policy.fromFieldPath, to))
  }

  /** One iteration of `migratePatches` (and of `migrateEnvPatches`): the
      legacy patch without its policy, and the migrated policy beside it. */
  function MigratePatch(p: Patch): (r: MigratedPatch)
    ensures r.patch.policy.None?
    ensures r.patch.(policy := p.policy) == p
    ensures p.policy.None? ==> r.policy.None?
    ensures MigratedPolicyBehaviour(r.policy) == LegacyPolicyBehaviour(p.policy)
  {
    if p.policy.Some? then MigratedPatch(p.(policy := None), MigratePatchPolicy(p.policy.value))
    else MigratedPatch(p, None)
  }

  /** `migratePatches` and `migrateEnvPatches`. */
  function MigratePatches(ps: seq<Patch>): (r: seq<MigratedPatch>)
    ensures |r| == |ps|
    ensures forall i :: 0 <= i < |ps| ==> r[i] == MigratePatch(ps[i])
    ensures forall i :: 0 <= i < |ps| ==> r[i].patch.policy.None?
    ensures forall i :: 0 <= i < |ps| ==>
      MigratedPolicyBehaviour(r[i].policy) == LegacyPolicyBehaviour(ps[i].policy)
    decreases |ps|
  {
    if |ps| == 0 then [] else MigratePatches(ps[..|ps| - 1]) + [MigratePatch(ps[|ps| - 1])]
  }

  /** `MigratePatchPolicyInPatchSets`. */
  function MigratePatchPolicyInPatchSets(pss: seq<PatchSet>): (r: seq<InputPatchSet>)
    ensures |r| == |pss|
    ensures forall i :: 0 <= i < |pss| ==>
      r[i].name == pss[i].name && r[i].patches == MigratePatches(pss[i].patches)
    decreases |pss|
  {
    if |pss| == 0 then []
    else
      var ps := pss[|pss| - 1];
      MigratePatchPolicyInPatchSets(pss[..|pss| - 1]) + [InputPatchSet(ps.name, MigratePatches(ps.patches))]
  }

  /** `MigratePatchPolicyInResources`: every template keeps all its fields
      except its patches, which move, migrated, beside it. */
  function MigratePatchPolicyInResources(rs: seq<ComposedTemplate>): (r: seq<InputComposedTemplate>)
    ensures |r| == |rs|
    ensures forall i :: 0 <= i < |rs| ==>
      && r[i].template == rs[i].(patches := [])
      && r[i].patches == MigratePatches(rs[i].patches)
    decreases |rs|
  {
    if |rs| == 0 then []
    else
      var t := rs[|rs| - 1];
      MigratePatchPolicyInResources(rs[..|rs| - 1]) + [InputComposedTemplate(t.(patches := []), MigratePatches(t.patches))]
  }

  /** `MigratePatchPolicyInEnvironment`: only the environment patches go to
      the function, and only when there is at least one. */
  function MigratePatchPolicyInEnvironment(ec: Option<EnvironmentConfiguration>): (r: Option<InputEnvironment>)
    ensures r.Some? <==> ec.Some? && |ec.value.patches| > 0
    ensures r.Some? ==> r.value.patches == MigratePatches(ec.value.patches)
  {
    if ec.None? || |ec.value.patches| == 0 then None
    else Some(InputEnvironment(MigratePatches(ec.value.patches)))
  }

  // =====================================================================
  // Discriminant inference for transforms

  /** The math options from which a math sub-type can be inferred. */
  predicate MathOptionSet(m: MathTransform, ty: MathTransformType) {
    match ty
    case MathTypeClampMin => m.clampMin.Some?
    case MathTypeClampMax => m.clampMax.Some?
    case MathTypeMultiply => m.multiply.Some?
    case MathTypeUnset => false
  }

  /** Inference priority of the math options: lower wins. */
  function MathRank(ty: MathTransformType): nat {
    match ty
    case MathTypeClampMin => 0
    case MathTypeClampMax => 1
    case MathTypeMultiply => 2
    case MathTypeUnset => 3
  }

  /** `getMathTransformType`: an explicit sub-type is kept; otherwise the
      highest-priority populated option (ClampMin, then ClampMax, then
      Multiply) names it, and with none populated it stays unset. */
  function GetMathTransformType(m: MathTransform): (r: MathTransformType)
    ensures m.mathType != MathTypeUnset ==> r == m.mathType
    ensures m.mathType == MathTypeUnset ==>
      && (r != MathTypeUnset ==> MathOptionSet(m, r))
      && (r == MathTypeUnset ==> forall ty :: !MathOptionSet(m, ty))
      && (forall ty :: MathOptionSet(m, ty) ==> MathRank(r) <= MathRank(ty))
  {
    if m.mathType != MathTypeUnset then m.mathType
    else if m.clampMin.Some? then MathTypeClampMin
    else if m.clampMax.Some? then MathTypeClampMax
    else if m.multiply.Some? then MathTypeMultiply
    else MathTypeUnset
  }

  /** The string options from which a string sub-type can be inferred. */
  predicate StringOptionSet(s: StringTransform, ty: StringTransformType) {
    match ty
    case StringTypeFormat => s.format.Some?
    case StringTypeConvert => s.convert.Some?
    case StringTypeRegexp => s.regexp.Some?
    case _ => false
  }

  function StringRank(ty: StringTransformType): nat {
    match ty
    case StringTypeFormat => 0
    case StringTypeConvert => 1
    case StringTypeRegexp => 2
    case _ => 3
  }

  /** `getStringTransformType`: an explicit sub-type is kept; otherwise the
      highest-priority populated option (Format, then Convert, then Regexp)
      names it, and with none populated it stays unset.  Trim and join
      options are never used for inference. */
  function GetStringTransformType(s: StringTransform): (r: StringTransformType)
    ensures s.stringType != StringTypeUnset ==> r == s.stringType
    ensures s.stringType == StringTypeUnset ==>
      && (r != StringTypeUnset ==> StringOptionSet(s, r))
      && (r == StringTypeUnset ==> forall ty :: !StringOptionSet(s, ty))
      && (forall ty :: StringOptionSet(s, ty) ==> StringRank(r) <= StringRank(ty))
  {
    if s.stringType != StringTypeUnset then s.stringType
    else if s.format.Some? then StringTypeFormat
    else if s.convert.Some? then StringTypeConvert
    else if s.regexp.Some? then StringTypeRegexp
    else StringTypeUnset
  }

  /** `setTransformTypeRequiredFields`: an unset discriminant is inferred
      from the populated sub-object (String wins over Math), then an unset
      Math or String sub-type is inferred from its options.  Only the
      discriminants change. */
  function SetTransformTypeRequiredFields(t: Transform): (r: Transform)
    requires t.Dereferenceable()
    ensures r.Dereferenceable()
    ensures t.transformType != TransformTypeUnset ==> r.transformType == t.transformType
    ensures t.transformType == TransformTypeUnset ==>
      && (r.transformType == TransformTypeUnset <==> t.math.None? && t.str.None?)
      && (r.transformType == TransformTypeString <==> t.str.Some?)
      && (r.transformType == TransformTypeMath <==> t.str.None? && t.math.Some?)
    ensures r.transformType == TransformTypeMath ==>
      r.math == Some(t.math.value.(mathType := GetMathTransformType(t.math.value)))
    ensures r.transformType == TransformTypeString ==>
      r.str == Some(t.str.value.(stringType := GetStringTransformType(t.str.value)))
    ensures r.transformType != TransformTypeMath ==> r.math == t.math
    ensures r.transformType != TransformTypeString ==> r.str == t.str
    ensures r.others == t.others
  {
    var ty :=
      if t.transformType != TransformTypeUnset then t.transformType
      else if t.str.Some? then TransformTypeString
      else if t.math.Some? then TransformTypeMath
      else TransformTypeUnset;
    var t1 := t.(transformType := ty);
    var t2 :=
      if ty == TransformTypeMath && t1.math.value.mathType == MathTypeUnset
      then t1.(math := Some(t1.math.value.(mathType := GetMathTransformType(t1.math.value))))
      else t1;
    if ty == TransformTypeString && t2.str.value.stringType == StringTypeUnset
    then t2.(str := Some(t2.str.value.(stringType := GetStringTransformType(t2.str.value))))
    else t2
  }

  /** The transform loop of `setMissingPatchFields`. */
  function SetMissingTransforms(ts: seq<Transform>): (r: seq<Transform>)
    requires forall t <- ts :: t.Dereferenceable()
    ensures |r| == |ts|
    ensures forall i :: 0 <= i < |ts| ==> r[i] == SetTransformTypeRequiredFields(ts[i])
    ensures forall t <- r :: t.Dereferenceable()
    decreases |ts|
  {
    if |ts| == 0 then []
    else SetMissingTransforms(ts[..|ts| - 1]) + [SetTransformTypeRequiredFields(ts[|ts| - 1])]
  }

  // =====================================================================
  // Patches

  /** `setMissingPatchFields` (and `setMissingEnvironmentPatchFields`): an
      unset patch type becomes FromCompositeFieldPath and every transform
      gets its discriminants; nothing else changes. */
  function SetMissingPatchFields(p: Patch): (r: Patch)
    requires PatchDereferenceable(p)
    ensures r.patchType != PatchTypeUnset
    ensures p.patchType != PatchTypeUnset ==> r.patchType == p.patchType
    ensures p.patchType == PatchTypeUnset ==> r.patchType == FromCompositeFieldPath
    ensures |r.transforms| == |p.transforms|
    ensures forall i :: 0 <= i < |p.transforms| ==>
      r.transforms[i] == SetTransformTypeRequiredFields(p.transforms[i])
    ensures r.(patchType := p.patchType, transforms := p.transforms) == p
    ensures PatchDereferenceable(r)
  {
    var p1 := if p.patchType == PatchTypeUnset then p.(patchType := FromCompositeFieldPath) else p;
    if |p1.transforms| == 0 then p1
    else p1.(transforms := SetMissingTransforms(p1.transforms))
  }

  /** The patch loop shared by `setMissingPatchSetFields`,
      `setMissingResourceFields` and the environment branch of
      `processFunctionInput`. */
  function SetMissingPatches(ps: seq<Patch>): (r: seq<Patch>)
    requires PatchesDereferenceable(ps)
    ensures |r| == |ps|
    ensures forall i :: 0 <= i < |ps| ==> r[i] == SetMissingPatchFields(ps[i])
    ensures PatchesDereferenceable(r)
    decreases |ps|
  {
    if |ps| == 0 then []
    else SetMissingPatches(ps[..|ps| - 1]) + [SetMissingPatchFields(ps[|ps| - 1])]
  }

  /** `setMissingPatchSetFields`. */
  function SetMissingPatchSetFields(ps: PatchSet): (r: PatchSet)
    requires PatchesDereferenceable(ps.patches)
    ensures r.name == ps.name
    ensures r.patches == SetMissingPatches(ps.patches)
  {
    ps.(patches := SetMissingPatches(ps.patches))
  }

  /** The patch-set loop of `processFunctionInput`. */
  function SetMissingPatchSets(pss: seq<PatchSet>): (r: seq<PatchSet>)
    requires forall ps <- pss :: PatchesDereferenceable(ps.patches)
    ensures |r| == |pss|
    ensures forall i :: 0 <= i < |pss| ==> r[i] == SetMissingPatchSetFields(pss[i])
    decreases |pss|
  {
    if |pss| == 0 then []
    else SetMissingPatchSets(pss[..|pss| - 1]) + [SetMissingPatchSetFields(pss[|pss| - 1])]
  }

  // =====================================================================
  // Connection details

  /** The sources a connection detail's type can be inferred from. */
  predicate SourceSet(d: ConnectionDetail, ty: ConnectionDetailType) {
    match ty
    case ConnectionDetailFromValue => d.value.Some?
    case ConnectionDetailFromFieldPath => d.fromFieldPath.Some?
    case ConnectionDetailFromConnectionSecretKey => d.fromConnectionSecretKey.Some?
  }

  function SourceRank(ty: ConnectionDetailType): nat {
    match ty
    case ConnectionDetailFromValue => 0
    case ConnectionDetailFromFieldPath => 1
    case ConnectionDetailFromConnectionSecretKey => 2
  }

  /** `setMissingConnectionDetailFields`: the type is always derived afresh
      from the populated sources (Value, then FromFieldPath, then
      FromConnectionSecretKey), whatever the input's type was; a missing name
      is taken from the secret key, and only for secret-key details. */
  function SetMissingConnectionDetailFields(sk: ConnectionDetail): (r: ConnectionDetail)
    ensures r.value == sk.value
    ensures r.fromFieldPath == sk.fromFieldPath
    ensures r.fromConnectionSecretKey == sk.fromConnectionSecretKey
    ensures r.detailType.Some? ==>
      && SourceSet(sk, r.detailType.value)
      && forall ty :: SourceSet(sk, ty) ==> SourceRank(r.detailType.value) <= SourceRank(ty)
    ensures r.detailType.None? <==> forall ty :: !SourceSet(sk, ty)
    ensures sk.name.Some? ==> r.name == sk.name
    ensures sk.name.None? && r.detailType == Some(ConnectionDetailFromConnectionSecretKey) ==>
      r.name.Some? && r.name == sk.fromConnectionSecretKey
    ensures sk.name.None? && r.detailType != Some(ConnectionDetailFromConnectionSecretKey) ==>
      r.name.None?
  {
    var detailType :=
      if sk.value.Some? then Some(ConnectionDetailFromValue)
      else if sk.fromFieldPath.Some? then Some(ConnectionDetailFromFieldPath)
      else if sk.fromConnectionSecretKey.Some? then Some(ConnectionDetailFromConnectionSecretKey)
      else None;
    assert (forall ty :: !SourceSet(sk, ty)) <==>
      !SourceSet(sk, ConnectionDetailFromValue) && !SourceSet(sk, ConnectionDetailFromFieldPath)
      && !SourceSet(sk, ConnectionDetailFromConnectionSecretKey);
    var name :=
      if sk.name.None? && detailType == Some(ConnectionDetailFromConnectionSecretKey)
      then sk.fromConnectionSecretKey
      else sk.name;
    ConnectionDetail(name, detailType, sk.fromConnectionSecretKey, sk.fromFieldPath, sk.value)
  }

  /** The connection-detail loop of `setMissingResourceFields`. */
  function SetMissingConnectionDetails(ds: seq<ConnectionDetail>): (r: seq<ConnectionDetail>)
    ensures |r| == |ds|
    ensures forall i :: 0 <= i < |ds| ==> r[i] == SetMissingConnectionDetailFields(ds[i])
    decreases |ds|
  {
    if |ds| == 0 then []
    else SetMissingConnectionDetails(ds[..|ds| - 1]) + [SetMissingConnectionDetailFields(ds[|ds| - 1])]
  }

  // =====================================================================
  // Resource templates

  /** `setMissingResourceFields`: the template at position `idx` is named
      `resource-<idx>` if anonymous, its connection details and patches are
      completed, and its base and readiness checks are untouched. */
  function SetMissingResourceFields(idx: nat, rs: ComposedTemplate): (r: ComposedTemplate)
    requires PatchesDereferenceable(rs.patches)
    ensures !Anonymous(r)
    ensures Anonymous(rs) ==> r.name == Some(Decimal.SyntheticName(idx))
    ensures !Anonymous(rs) ==> r.name == rs.name
    ensures r.base == rs.base && r.readinessChecks == rs.readinessChecks
    ensures r.connectionDetails == SetMissingConnectionDetails(rs.connectionDetails)
    ensures r.patches == SetMissingPatches(rs.patches)
  {
    var name := if Anonymous(rs) then Some(Decimal.SyntheticName(idx)) else rs.name;
    rs.(name := name,
        connectionDetails := SetMissingConnectionDetails(rs.connectionDetails),
        patches := SetMissingPatches(rs.patches))
  }

  /** The resource loop of `processFunctionInput`: the template at position
      `i` is completed as the `i`-th one. */
  function SetMissingResources(rs: seq<ComposedTemplate>): (r: seq<ComposedTemplate>)
    requires forall t <- rs :: PatchesDereferenceable(t.patches)
    ensures |r| == |rs|
    ensures forall i :: 0 <= i < |rs| ==> r[i] == SetMissingResourceFields(i, rs[i])
    ensures forall t <- r :: !Anonymous(t)
    decreases |rs|
  {
    if |rs| == 0 then []
    else SetMissingResources(rs[..|rs| - 1]) + [SetMissingResourceFields(|rs| - 1, rs[|rs| - 1])]
  }

  // =====================================================================
  // The function input and the conversion

  /** The converter's `Input`: the legacy sections before processing. */
  datatype Input = Input(
    environment: Option<EnvironmentConfiguration>,
    patchSets: seq<PatchSet>,
    resources: seq<ComposedTemplate>)

  /** Every transform in the legacy sections can be processed. */
  predicate SectionsDereferenceable(
    environment: Option<EnvironmentConfiguration>,
    patchSets: seq<PatchSet>,
    resources: seq<ComposedTemplate>)
  {
    && (environment.Some? ==> PatchesDereferenceable(environment.value.patches))
    && (forall ps <- patchSets :: PatchesDereferenceable(ps.patches))
    && (forall t <- resources :: PatchesDereferenceable(t.patches))
  }

  predicate CompositionDereferenceable(c: Composition) {
    SectionsDereferenceable(c.spec.environment, c.spec.patchSets, c.spec.resources)
  }

  /** `processFunctionInput`: completes the legacy sections, migrates their
      policies and wraps them in the function's input document. */
  function ProcessFunctionInput(input: Input): (doc: InputDocument)
    requires SectionsDereferenceable(input.environment, input.patchSets, input.resources)
    ensures doc.apiVersion == InputApiVersion && doc.kind == InputKind
    ensures doc.environment.Some? <==> input.environment.Some? && |input.environment.value.patches| > 0
    ensures doc.environment.Some? ==>
      doc.environment.value.patches == MigratePatches(SetMissingPatches(input.environment.value.patches))
    ensures doc.patchSets == MigratePatchPolicyInPatchSets(SetMissingPatchSets(input.patchSets))
    ensures doc.resources == MigratePatchPolicyInResources(SetMissingResources(input.resources))
  {
    var processedEnvironment :=
      if input.environment.Some? && |input.environment.value.patches| > 0
      then Some(EnvironmentConfiguration(map[], [], None, SetMissingPatches(input.environment.value.patches)))
      else None;
    InputDocument(
      InputApiVersion,
      InputKind,
      MigratePatchPolicyInEnvironment(processedEnvironment),
      MigratePatchPolicyInPatchSets(SetMissingPatchSets(input.patchSets)),
      MigratePatchPolicyInResources(SetMissingResources(input.resources)))
  }

  /** The function a converted pipeline step runs. */
  function FunctionRefName(functionRefName: string): (name: string)
    ensures name != ""
    ensures functionRefName != "" ==> name == functionRefName
    ensures functionRefName == "" ==> name == DefaultFunctionRefName
  {
    if functionRefName != "" then functionRefName else DefaultFunctionRefName
  }

  /** `convertPnTToPipeline`.  A nil composition is an error; a pipeline-mode
      composition is returned as it is; any other becomes a pipeline-mode
      composition with one step running the patch-and-transform function on
      the migrated legacy sections.  `now` is the clock reading used when the
      composition has no creation timestamp. */
  function ConvertPnTToPipeline(c: Option<Composition>, functionRefName: string, now: Timestamp): (r: Result<Composition, Error>)
    requires c.Some? && !InPipelineMode(c.value) ==> CompositionDereferenceable(c.value)
    ensures r.Failure? <==> c.None?
    ensures r.Failure? ==> r.error == Message(ErrNilComposition)
    ensures c.Some? && InPipelineMode(c.value) ==> r == Success(c.value)
    ensures r.Success? ==> InPipelineMode(r.value)
    ensures c.Some? && !InPipelineMode(c.value) ==>
      var src, out := c.value, r.value;
      && ModeExclusive(out)
      && out.typeMeta == src.typeMeta
      && out.meta.(creationTimestamp := src.meta.creationTimestamp) == src.meta
      && out.meta.creationTimestamp == (if src.meta.creationTimestamp.Some? then src.meta.creationTimestamp else Some(now))
      && out.spec.compositeTypeRef == src.spec.compositeTypeRef
      && out.spec.writeConnectionSecretsToNamespace == src.spec.writeConnectionSecretsToNamespace
      && out.spec.publishConnectionDetailsWithStoreConfigRef == src.spec.publishConnectionDetailsWithStoreConfigRef
      && (out.spec.environment.Some? <==> src.spec.environment.Some?)
      && (out.spec.environment.Some? ==>
            && out.spec.environment.value.defaultData == src.spec.environment.value.defaultData
            && out.spec.environment.value.environmentConfigs == src.spec.environment.value.environmentConfigs
            && out.spec.environment.value.policy == src.spec.environment.value.policy
            && out.spec.environment.value.patches == [])
      && |out.spec.pipeline| == 1
      && out.spec.pipeline[0].step == PipelineStepName
      && out.spec.pipeline[0].functionRef.name == FunctionRefName(functionRefName)
      && out.spec.pipeline[0].functionRef.name == (if functionRefName == "" then DefaultFunctionRefName else functionRefName)
      && out.spec.pipeline[0].input.Some?
      && out.spec.pipeline[0].input.value.PatchAndTransformInput?
      && var doc := out.spec.pipeline[0].input.value.document;
         && doc.apiVersion == InputApiVersion
         && doc.kind == InputKind
         && (doc.environment.Some? <==> src.spec.environment.Some? && |src.spec.environment.value.patches| > 0)
         && |doc.patchSets| == |src.spec.patchSets|
         && |doc.resources| == |src.spec.resources|
  {
    if c.None? then Failure(Message(ErrNilComposition))
    else if InPipelineMode(c.value) then Success(c.value)
    else
      var c := c.value;
      var meta := if c.meta.creationTimestamp.None? then c.meta.(creationTimestamp := Some(now)) else c.meta;
      var environment :=
        if c.spec.environment.Some?
        then Some(EnvironmentConfiguration(
               c.spec.environment.value.defaultData,
               c.spec.environment.value.environmentConfigs,
               c.spec.environment.value.policy,
               []))
        else None;
      var inputEnvironment :=
        if c.spec.environment.Some? && |c.spec.environment.value.patches| > 0
        then Some(EnvironmentConfiguration(map[], [], None, c.spec.environment.value.patches))
        else None;
      var input := Input(inputEnvironment, c.spec.patchSets, c.spec.resources);
      var step := PipelineStep(
        PipelineStepName,
        FunctionReference(FunctionRefName(functionRefName)),
        Some(PatchAndTransformInput(ProcessFunctionInput(input))));
      Success(Composition(
        c.typeMeta,
        meta,
        CompositionSpec(
          c.spec.compositeTypeRef,
          Some(ModePipeline),
          [],
          environment,
          [],
          [step],
          c.spec.writeConnectionSecretsToNamespace,
          c.spec.publishConnectionDetailsWithStoreConfigRef)))
  }
}

=== FILE: converter_properties.dfy ===
/** Properties of the converter that relate several calls: the merge-options
    truth table, idempotence of the conversion and of every completion step,
    and what the migrated input document holds for each legacy template and
    patch. */
module ConverterProperties {
  import opened Wrappers
  import opened Types
  import opened Converter
  import Decimal
  import Fallback

  /** The input document a conversion puts in its one pipeline step. */
  function ConvertedDocument(c: Composition, functionRefName: string, now: Timestamp): InputDocument
    requires !InPipelineMode(c) && CompositionDereferenceable(c)
  {
    ConvertPnTToPipeline(Some(c), functionRefName, now).value.spec.pipeline[0].input.value.document
  }

  // =====================================================================
  // Merge options

  /** The four rows of the truth table, and no options at all. */
  lemma MergeOptionsTruthTable(append: Option<bool>, keep: Option<bool>)
    ensures MigrateMergeOptions(None) == None
    ensures IsNilOrFalse(append) && IsNilOrFalse(keep) ==>
      MigrateMergeOptions(Some(MergeOptions(append, keep))) == Some(ForceMergeObjects)
    ensures IsTrue(append) && IsNilOrFalse(keep) ==>
      MigrateMergeOptions(Some(MergeOptions(append, keep))) == Some(ForceMergeObjectsAppendArrays)
    ensures IsNilOrFalse(append) && IsTrue(keep) ==>
      MigrateMergeOptions(Some(MergeOptions(append, keep))) == Some(MergeObjects)
    ensures IsTrue(append) && IsTrue(keep) ==>
      MigrateMergeOptions(Some(MergeOptions(append, keep))) == Some(MergeObjectsAppendArrays)
  {
  }

  /** Absent merge options (Replace) and options with both flags off
      (ForceMergeObjects) migrate differently. */
  lemma NilOptionsDifferFromAllFalse(append: Option<bool>, keep: Option<bool>)
    requires IsNilOrFalse(append) && IsNilOrFalse(keep)
    ensures MigrateMergeOptions(None) != MigrateMergeOptions(Some(MergeOptions(append, keep)))
  {
  }

  /** The legacy merge options that a policy value stands for. */
  function LegacyOptionsFor(p: ToFieldPathPolicy): (mo: MergeOptions)
    ensures MigrateMergeOptions(Some(mo)) == Some(p)
  {
    match p
    case MergeObjects => MergeOptions(Some(false), Some(true))
    case MergeObjectsAppendArrays => MergeOptions(Some(true), Some(true))
    case ForceMergeObjects => MergeOptions(Some(false), Some(false))
    case ForceMergeObjectsAppendArrays => MergeOptions(Some(true), Some(false))
  }

  /** Options that agree on which flags are true migrate alike: nil and
      false are the same inside a merge-options object. */
  lemma MergeOptionsOnlyTruthMatters(a: MergeOptions, b: MergeOptions)
    requires IsTrue(a.appendSlice) == IsTrue(b.appendSlice)
    requires IsTrue(a.keepMapValues) == IsTrue(b.keepMapValues)
    ensures MigrateMergeOptions(Some(a)) == MigrateMergeOptions(Some(b))
  {
  }

  // =====================================================================
  // The conversion as a whole

  /** Converting a converted composition changes nothing, whatever function
      name and clock reading the second run gets. */
  lemma ConvertIdempotent(c: Option<Composition>, name: string, now: Timestamp, name': string, now': Timestamp)
    requires c.Some? && !InPipelineMode(c.value) ==> CompositionDereferenceable(c.value)
    requires ConvertPnTToPipeline(c, name, now).Success?
    ensures var once := ConvertPnTToPipeline(c, name, now);
      ConvertPnTToPipeline(Some(once.value), name', now') == once
  {
  }

  /** Every template of the input document is named: anonymous ones
      `resource-<position>`, the others as before.  The document keeps the
      templates' number and order, and their own patch lists are empty. */
  lemma ConvertNamesTemplates(c: Composition, name: string, now: Timestamp)
    requires !InPipelineMode(c) && CompositionDereferenceable(c)
    ensures var doc := ConvertedDocument(c, name, now);
      && |doc.resources| == |c.spec.resources|
      && forall i :: 0 <= i < |c.spec.resources| ==>
           && !Anonymous(doc.resources[i].template)
           && doc.resources[i].template.name ==
                (if Anonymous(c.spec.resources[i]) then Some(Decimal.SyntheticName(i)) else c.spec.resources[i].name)
           && doc.resources[i].template.patches == []
           && doc.resources[i].template.base == c.spec.resources[i].base
  {
  }

  /** Two anonymous templates never receive the same synthetic name. */
  lemma ConvertedAnonymousNamesDistinct(c: Composition, name: string, now: Timestamp, i: nat, j: nat)
    requires !InPipelineMode(c) && CompositionDereferenceable(c)
    requires i < j < |c.spec.resources|
    requires Anonymous(c.spec.resources[i]) && Anonymous(c.spec.resources[j])
    ensures var doc := ConvertedDocument(c, name, now);
      doc.resources[i].template.name != doc.resources[j].template.name
  {
    ConvertNamesTemplates(c, name, now);
    Decimal.SyntheticNamesDistinct(i, j);
  }

  /** Each patch of each template reaches the document in place, with its
      type defaulted, its legacy policy cleared and a migrated policy of the
      same effect. */
  lemma ConvertMigratesResourcePatches(c: Composition, name: string, now: Timestamp, i: nat, j: nat)
    requires !InPipelineMode(c) && CompositionDereferenceable(c)
    requires i < |c.spec.resources| && j < |c.spec.resources[i].patches|
    ensures var doc := ConvertedDocument(c, name, now);
      var legacy := c.spec.resources[i].patches[j];
      && i < |doc.resources|
      && |doc.resources[i].patches| == |c.spec.resources[i].patches|
      && var migrated := doc.resources[i].patches[j];
         && migrated.patch.policy.None?
         && migrated.patch.patchType != PatchTypeUnset
         && migrated.patch.fromFieldPath == legacy.fromFieldPath
         && migrated.patch.toFieldPath == legacy.toFieldPath
         && migrated.patch == SetMissingPatchFields(legacy).(policy := None)
         && MigratedPolicyBehaviour(migrated.policy) == LegacyPolicyBehaviour(legacy.policy)
  {
  }

  /** Each patch of each patch set reaches the document in place, under the
      set's name, with its legacy policy cleared and a migrated policy of the
      same effect. */
  lemma ConvertMigratesPatchSets(c: Composition, name: string, now: Timestamp, i: nat, j: nat)
    requires !InPipelineMode(c) && CompositionDereferenceable(c)
    requires i < |c.spec.patchSets| && j < |c.spec.patchSets[i].patches|
    ensures var doc := ConvertedDocument(c, name, now);
      var legacy := c.spec.patchSets[i].patches[j];
      && i < |doc.patchSets|
      && doc.patchSets[i].name == c.spec.patchSets[i].name
      && |doc.patchSets[i].patches| == |c.spec.patchSets[i].patches|
      && var migrated := doc.patchSets[i].patches[j];
         && migrated.patch.policy.None?
         && migrated.patch.patchType != PatchTypeUnset
         && migrated.patch == SetMissingPatchFields(legacy).(policy := None)
         && MigratedPolicyBehaviour(migrated.policy) == LegacyPolicyBehaviour(legacy.policy)
  {
  }

  /** The environment patches move to the document; the composition keeps
      the rest of its environment settings. */
  lemma ConvertSplitsEnvironment(c: Composition, name: string, now: Timestamp)
    requires !InPipelineMode(c) && CompositionDereferenceable(c)
    requires c.spec.environment.Some? && |c.spec.environment.value.patches| > 0
    ensures var doc := ConvertedDocument(c, name, now);
      var legacy := c.spec.environment.value.patches;
      && doc.environment.Some?
      && |doc.environment.value.patches| == |legacy|
      && forall j :: 0 <= j < |legacy| ==>
           && doc.environment.value.patches[j].patch.policy.None?
           && doc.environment.value.patches[j].patch.patchType != PatchTypeUnset
           && doc.environment.value.patches[j].patch == SetMissingPatchFields(legacy[j]).(policy := None)
           && MigratedPolicyBehaviour(doc.environment.value.patches[j].policy) == LegacyPolicyBehaviour(legacy[j].policy)
  {
    var doc := ConvertedDocument(c, name, now);
    var legacy := c.spec.environment.value.patches;
    var completed := SetMissingPatches(legacy);
    assert doc.environment.value.patches == MigratePatches(completed);
    forall j | 0 <= j < |legacy|
      ensures MigratedPolicyBehaviour(doc.environment.value.patches[j].policy) == LegacyPolicyBehaviour(legacy[j].policy)
    {
      assert completed[j] == SetMissingPatchFields(legacy[j]);
    }
  }

  // =====================================================================
  // Idempotence of the completion steps

  lemma TransformCompletionIdempotent(t: Transform)
    requires t.Dereferenceable()
    ensures SetTransformTypeRequiredFields(SetTransformTypeRequiredFields(t)) == SetTransformTypeRequiredFields(t)
  {
  }

  lemma TransformsCompletionIdempotent(ts: seq<Transform>)
    requires forall t <- ts :: t.Dereferenceable()
    ensures SetMissingTransforms(SetMissingTransforms(ts)) == SetMissingTransforms(ts)
  {
  }

  lemma PatchCompletionIdempotent(p: Patch)
    requires PatchDereferenceable(p)
    ensures SetMissingPatchFields(SetMissingPatchFields(p)) == SetMissingPatchFields(p)
  {
  }

  lemma {:induction false} PatchesCompletionIdempotent(ps: seq<Patch>)
    requires PatchesDereferenceable(ps)
    ensures SetMissingPatches(SetMissingPatches(ps)) == SetMissingPatches(ps)
  {
    var once := SetMissingPatches(ps);
    forall i | 0 <= i < |ps|
      ensures SetMissingPatches(once)[i] == once[i]
    {
      PatchCompletionIdempotent(ps[i]);
    }
  }

  lemma ConnectionDetailCompletionIdempotent(d: ConnectionDetail)
    ensures SetMissingConnectionDetailFields(SetMissingConnectionDetailFields(d)) == SetMissingConnectionDetailFields(d)
  {
  }

  /** The input's connection-detail type has no influence on the result. */
  lemma ConnectionDetailTypeIgnored(d: ConnectionDetail, ty: Option<ConnectionDetailType>)
    ensures SetMissingConnectionDetailFields(d.(detailType := ty)) == SetMissingConnectionDetailFields(d)
  {
  }

  lemma ConnectionDetailsCompletionIdempotent(ds: seq<ConnectionDetail>)
    ensures SetMissingConnectionDetails(SetMissingConnectionDetails(ds)) == SetMissingConnectionDetails(ds)
  {
  }

  /** Completing a template twice, at the same position, is completing it
      once: a synthetic name is not replaced and nothing is re-inferred. */
  lemma ResourceCompletionIdempotent(idx: nat, t: ComposedTemplate)
    requires PatchesDereferenceable(t.patches)
    ensures SetMissingResourceFields(idx, SetMissingResourceFields(idx, t)) == SetMissingResourceFields(idx, t)
  {
    ConnectionDetailsCompletionIdempotent(t.connectionDetails);
    PatchesCompletionIdempotent(t.patches);
  }

  // =====================================================================
  // Converted compositions and the fallback trigger

  /** A converted composition keeps no resource templates of its own, so a
      revision made from it never triggers the fallback for anonymous
      templates: only the XR's references can. */
  lemma ConvertedCompositionNeverAnonymous(
    c: Composition, name: string, now: Timestamp,
    get: Fallback.Getter, xr: Fallback.Composite, meta: ObjectMeta)
    requires !InPipelineMode(c) && CompositionDereferenceable(c)
    ensures var out := ConvertPnTToPipeline(Some(c), name, now).value;
      var req := Fallback.CompositionRequest(Fallback.CompositionRevision(meta, out.spec));
      Fallback.FallBackForAnonymousTemplates(get, xr, req) == Fallback.CheckReferences(get, xr.resourceRefs)
  {
  }
}

=== FILE: decimal.dfy ===
/** Decimal rendering of a template's index (`fmt.Sprintf("%d", idx)`),
    lower-casing (`strings.ToLower`), and the synthetic name
    `resource-<idx>` given to anonymous resource templates. */
module Decimal {

  predicate IsDigit(c: char) {
    '0' <= c <= '9'
  }

  predicate AllDigits(s: string) {
    forall i :: 0 <= i < |s| ==> IsDigit(s[i])
  }

  function DigitChar(d: nat): (c: char)
    requires d < 10
    ensures IsDigit(c)
    ensures c as int - '0' as int == d
  {
    "0123456789"[d]
  }

  function DigitValue(c: char): (d: nat)
    requires IsDigit(c)
    ensures d < 10
  {
    c as int - '0' as int
  }

  /** The decimal representation of `n`, without leading zeros. */
  function NatToString(n: nat): (s: string)
    ensures |s| >= 1
    ensures AllDigits(s)
    ensures s[0] == '0' ==> n == 0
    decreases n
  {
    if n < 10 then [DigitChar(n)] else NatToString(n / 10) + [DigitChar(n % 10)]
  }

  /** The value of a string of decimal digits (the inverse of NatToString). */
  function ParseDecimal(s: string): nat
    requires AllDigits(s)
    decreases |s|
  {
    if |s| == 0 then 0 else ParseDecimal(s[..|s| - 1]) * 10 + DigitValue(s[|s| - 1])
  }

  /** Reading back the rendered index gives the index. */
  lemma {:induction false} ParseNatToString(n: nat)
    ensures ParseDecimal(NatToString(n)) == n
    decreases n
  {
    var s := NatToString(n);
    if n >= 10 {
      var prefix := NatToString(n / 10);
      assert s[..|s| - 1] == prefix;
      ParseNatToString(n / 10);
    }
  }

  /** Distinct indexes render to distinct strings. */
  lemma NatToStringInjective(m: nat, n: nat)
    requires NatToString(m) == NatToString(n)
    ensures m == n
  {
    ParseNatToString(m);
    ParseNatToString(n);
  }

  /** ASCII lower-casing; the other characters are left unchanged. */
  function LowerChar(c: char): char {
    if 'A' <= c <= 'Z' then (c as int - 'A' as int + 'a' as int) as char else c
  }

  /** The string has no ASCII upper-case letter. */
  predicate HasNoUpperCase(s: string) {
    forall i :: 0 <= i < |s| ==> !('A' <= s[i] <= 'Z')
  }

  /** ASCII lower-casing: the result has no upper-case letter, every
      upper-case letter becomes its lower-case partner at the same
      position, and every other character is kept. */
  function ToLower(s: string): (r: string)
    ensures |r| == |s|
    ensures HasNoUpperCase(r)
    ensures forall i :: 0 <= i < |s| && !('A' <= s[i] <= 'Z') ==> r[i] == s[i]
    ensures forall i :: 0 <= i < |s| && 'A' <= s[i] <= 'Z' ==>
      r[i] as int - s[i] as int == 'a' as int - 'A' as int
  {
    seq(|s|, i requires 0 <= i < |s| => LowerChar(s[i]))
  }

  /** Lower-casing leaves a string without upper-case letters unchanged. */
  lemma ToLowerIdentity(s: string)
    requires HasNoUpperCase(s)
    ensures ToLower(s) == s
  {
  }

  const SyntheticNamePrefix: string := "resource-"

  /** The name given to the anonymous template at position `idx`:
      `strings.ToLower(fmt.Sprintf("resource-%d", idx))`. */
  function SyntheticName(idx: nat): (name: string)
    ensures name == SyntheticNamePrefix + NatToString(idx)
    ensures name != ""
  {
    var s := SyntheticNamePrefix + NatToString(idx);
    assert HasNoUpperCase(s) by {
      forall i | 0 <= i < |s| ensures !('A' <= s[i] <= 'Z') {
        if i >= |SyntheticNamePrefix| {
          assert s[i] == NatToString(idx)[i - |SyntheticNamePrefix|];
        }
      }
    }
    ToLowerIdentity(s);
    ToLower(s)
  }

  /** Anonymous templates at different positions get different names. */
  lemma SyntheticNamesDistinct(i: nat, j: nat)
    requires i != j
    ensures SyntheticName(i) != SyntheticName(j)
  {
    if SyntheticName(i) == SyntheticName(j) {
      var k := |SyntheticNamePrefix|;
      assert NatToString(i) == SyntheticName(i)[k..];
      assert NatToString(j) == SyntheticName(j)[k..];
      NatToStringInjective(i, j);
    }
  }
}

=== FILE: errors.dfy ===
/** The errors the modelled code produces or passes on.  Messages are kept
    structured: a wrapped error records its cause and the context it was
    wrapped with, which is what the source's tests compare. */
module Errors {

  /** The wrapping contexts used by the fallback composer and its trigger
      (`errTriggerFn` and `errGetComposed`).  Their message texts live in a
      file that is not part of this model. */
  datatype WrapContext = ErrTriggerFn | ErrGetComposed

  datatype Error =
    | /** An error created from a plain message (`errors.New`). */
      Message(text: string)
    | /** `errors.Wrap(cause, context)`. */
      Wrapped(cause: Error, context: WrapContext)
    | /** `errors.Errorf(errFmtInvalidCompositionValidationMode, value)`:
          the offending annotation value is part of the error. */
      InvalidValidationMode(value: string)
}

=== FILE: fallback.dfy ===
/** The fallback composer and its trigger
    (`internal/controller/apiextensions/composite`): a composer that asks a
    trigger, per request, whether to use the fallback composer instead of
    the preferred one, and the trigger that asks for the fallback when
    anonymous resource templates are involved.

    Composers, triggers and the store lookup are function values: what
    they do is outside this model, only how their answers are used is in. */
module Fallback {
  import opened Wrappers
  import opened Errors
  import opened Types

  /** The annotation recording which named template a composed resource was
      created from. */
  const AnnotationKeyCompositionResourceName: string := "crossplane.io/composition-resource-name"

  newtype byte = x: int | 0 <= x < 256

  datatype ObjectReference = ObjectReference(apiVersion: string, kind: string, namespace: string, name: string)

  /** The composite resource (XR), as far as the trigger reads it: its
      references to the composed resources it already has. */
  datatype Composite = Composite(resourceRefs: seq<ObjectReference>)

  datatype CompositionRevision = CompositionRevision(meta: ObjectMeta, spec: CompositionSpec)

  datatype CompositionRequest = CompositionRequest(revision: CompositionRevision)

  datatype CompositionResult = CompositionResult(
    composed: seq<Raw>,
    connectionDetails: map<string, seq<byte>>,
    events: seq<Raw>)

  /** The zero `CompositionResult`. */
  const EmptyResult: CompositionResult := CompositionResult([], map[], [])

  /** What `Compose` returns: a result and an error, either possibly empty. */
  datatype ComposeOutcome = ComposeOutcome(result: CompositionResult, err: Option<Error>)

  type Composer = (Composite, CompositionRequest) -> ComposeOutcome

  /** What a trigger returns: whether to fall back, and an error. */
  datatype TriggerOutcome = TriggerOutcome(fallback: bool, err: Option<Error>)

  type TriggerFn = (Composite, CompositionRequest) -> TriggerOutcome

  /** `NewFallBackComposer(preferred, fallback, trigger)`. */
  datatype FallbackComposer = FallbackComposer(preferred: Composer, fallback: Composer, trigger: TriggerFn)

  // =====================================================================
  // The fallback composer

  /** `FallbackComposer.Compose`: a trigger error is wrapped and returned
      with an empty result; otherwise the trigger's answer picks the one
      composer whose outcome is returned as it is. */
  function Compose(fc: FallbackComposer, xr: Composite, req: CompositionRequest): (r: ComposeOutcome)
    ensures fc.trigger(xr, req).err.Some? ==>
      r == ComposeOutcome(EmptyResult, Some(Wrapped(fc.trigger(xr, req).err.value, ErrTriggerFn)))
    ensures fc.trigger(xr, req) == TriggerOutcome(true, None) ==> r == fc.fallback(xr, req)
    ensures fc.trigger(xr, req) == TriggerOutcome(false, None) ==> r == fc.preferred(xr, req)
  {
    var t := fc.trigger(xr, req);
    if t.err.Some? then ComposeOutcome(EmptyResult, Some(Wrapped(t.err.value, ErrTriggerFn)))
    else if t.fallback then fc.fallback(xr, req)
    else fc.preferred(xr, req)
  }

  /** When the trigger says not to fall back, the fallback composer has no
      influence on the outcome. */
  lemma ComposeIgnoresFallbackComposer(fc: FallbackComposer, other: Composer, xr: Composite, req: CompositionRequest)
    requires fc.trigger(xr, req) == TriggerOutcome(false, None)
    ensures Compose(fc.(fallback := other), xr, req) == Compose(fc, xr, req)
  {
  }

  /** When the trigger says to fall back, the preferred composer has no
      influence on the outcome. */
  lemma ComposeIgnoresPreferredComposer(fc: FallbackComposer, other: Composer, xr: Composite, req: CompositionRequest)
    requires fc.trigger(xr, req) == TriggerOutcome(true, None)
    ensures Compose(fc.(preferred := other), xr, req) == Compose(fc, xr, req)
  {
  }

  /** A trigger error, even alongside `true`, keeps both composers out of
      the outcome. */
  lemma TriggerErrorShortCircuits(fc: FallbackComposer, p: Composer, f: Composer, xr: Composite, req: CompositionRequest)
    requires fc.trigger(xr, req).err.Some?
    ensures Compose(fc.(preferred := p, fallback := f), xr, req) == Compose(fc, xr, req)
    ensures Compose(fc, xr, req).result == EmptyResult
    ensures Compose(fc, xr, req).err.Some?
  {
  }

  // =====================================================================
  // The anonymous-template trigger

  /** The store's answer for one reference. */
  datatype GetResult = Found(annotations: map<string, string>) | NotFound | GetFailed(err: Error)

  type Getter = ObjectReference -> GetResult

  /** `GetCompositionResourceName`: the annotation's value, "" if absent. */
  function CompositionResourceName(annotations: map<string, string>): string {
    if AnnotationKeyCompositionResourceName in annotations
    then annotations[AnnotationKeyCompositionResourceName]
    else ""
  }

  predicate HasAnonymousTemplate(ts: seq<ComposedTemplate>) {
    exists t <- ts :: Anonymous(t)
  }

  /** A lookup that lets the scan of references go on: the resource is
      gone, or it records the named template it came from. */
  predicate Benign(g: GetResult) {
    g.NotFound? || (g.Found? && CompositionResourceName(g.annotations) != "")
  }

  /** What a lookup that stops the scan decides. */
  function Verdict(g: GetResult): TriggerOutcome
    requires !Benign(g)
  {
    if g.GetFailed? then TriggerOutcome(false, Some(Wrapped(g.err, ErrGetComposed)))
    else TriggerOutcome(true, None)
  }

  /** The `i`-th reference is the first whose lookup stops the scan. */
  predicate DecidedAt(get: Getter, refs: seq<ObjectReference>, i: int) {
    && 0 <= i < |refs|
    && !Benign(get(refs[i]))
    && forall j :: 0 <= j < i ==> Benign(get(refs[j]))
  }

  /** The reference loop of `FallBackForAnonymousTemplates`: the first
      reference that fails to load, or loads without the template-name
      annotation, decides; a missing resource is skipped. */
  function CheckReferences(get: Getter, refs: seq<ObjectReference>): (r: TriggerOutcome)
    ensures (forall i :: 0 <= i < |refs| ==> Benign(get(refs[i]))) ==> r == TriggerOutcome(false, None)
    ensures forall i :: DecidedAt(get, refs, i) ==> r == Verdict(get(refs[i]))
    ensures r.err.Some? ==> !r.fallback
    decreases |refs|
  {
    if |refs| == 0 then TriggerOutcome(false, None)
    else
      var g := get(refs[0]);
      if !Benign(g) then Verdict(g)
      else
        ScanContinues(get, refs);
        CheckReferences(get, refs[1..])
  }

  /** After a benign first lookup, the scan of the remaining references
      decides exactly as the scan of all of them. */
  lemma ScanContinues(get: Getter, refs: seq<ObjectReference>)
    requires |refs| > 0 && Benign(get(refs[0]))
    ensures forall i :: DecidedAt(get, refs, i) ==>
      i > 0 && DecidedAt(get, refs[1..], i - 1) && refs[1..][i - 1] == refs[i]
    ensures (forall i :: 0 <= i < |refs| ==> Benign(get(refs[i]))) ==>
      forall i :: 0 <= i < |refs[1..]| ==> Benign(get(refs[1..][i]))
  {
  }

  /** `FallBackForAnonymousTemplates(c)(ctx, xr, req)`: fall back when the
      revision has an anonymous template, or when a composed resource the XR
      already references was created without the template-name annotation;
      a failed lookup is an error and decides nothing. */
  function FallBackForAnonymousTemplates(get: Getter, xr: Composite, req: CompositionRequest): (r: TriggerOutcome)
    ensures HasAnonymousTemplate(req.revision.spec.resources) ==> r == TriggerOutcome(true, None)
    ensures !HasAnonymousTemplate(req.revision.spec.resources) ==>
      && ((forall i :: 0 <= i < |xr.resourceRefs| ==> Benign(get(xr.resourceRefs[i]))) ==> r == TriggerOutcome(false, None))
      && (forall i :: DecidedAt(get, xr.resourceRefs, i) ==> r == Verdict(get(xr.resourceRefs[i])))
    ensures r.err.Some? ==> !r.fallback
  {
    if HasAnonymousTemplate(req.revision.spec.resources) then TriggerOutcome(true, None)
    else CheckReferences(get, xr.resourceRefs)
  }

  /** The trigger as a `TriggerFn` over a fixed store. */
  function AnonymousTemplateTrigger(get: Getter): TriggerFn {
    (xr: Composite, req: CompositionRequest) => FallBackForAnonymousTemplates(get, xr, req)
  }

  /** A fallback composer wired to the anonymous-template trigger uses the
      fallback composer for a revision with an anonymous template, whatever
      the store holds. */
  lemma AnonymousTemplateComposesWithFallback(get: Getter, p: Composer, f: Composer, xr: Composite, req: CompositionRequest)
    requires HasAnonymousTemplate(req.revision.spec.resources)
    ensures Compose(FallbackComposer(p, f, AnonymousTemplateTrigger(get)), xr, req) == f(xr, req)
  {
  }

  /** With no anonymous template, the first lookup that fails while the
      references are scanned reaches the caller wrapped twice, first as a
      lookup error and then as a trigger error, with an empty result. */
  lemma FailedLookupComposesToError(get: Getter, p: Composer, f: Composer, xr: Composite, req: CompositionRequest, i: int)
    requires !HasAnonymousTemplate(req.revision.spec.resources)
    requires DecidedAt(get, xr.resourceRefs, i) && get(xr.resourceRefs[i]).GetFailed?
    ensures Compose(FallbackComposer(p, f, AnonymousTemplateTrigger(get)), xr, req)
      == ComposeOutcome(EmptyResult, Some(Wrapped(Wrapped(get(xr.resourceRefs[i]).err, ErrGetComposed), ErrTriggerFn)))
  {
  }

  /** The trigger never asks to fall back without reason: when it does,
      there is an anonymous template or a referenced resource loaded without
      its template-name annotation before any lookup failed. */
  lemma {:induction false} FallbackHasCause(get: Getter, xr: Composite, req: CompositionRequest)
    requires FallBackForAnonymousTemplates(get, xr, req).fallback
    ensures || HasAnonymousTemplate(req.revision.spec.resources)
            || exists i :: DecidedAt(get, xr.resourceRefs, i) && get(xr.resourceRefs[i]).Found?
  {
    if !HasAnonymousTemplate(req.revision.spec.resources) {
      var i := FirstNonBenign(get, xr.resourceRefs);
      assert DecidedAt(get, xr.resourceRefs, i);
    }
  }

  /** An error from the trigger always comes from a failed lookup, which is
      the first reference that stopped the scan. */
  lemma {:induction false} ErrorHasCause(get: Getter, xr: Composite, req: CompositionRequest)
    requires FallBackForAnonymousTemplates(get, xr, req).err.Some?
    ensures !HasAnonymousTemplate(req.revision.spec.resources)
    ensures exists i :: DecidedAt(get, xr.resourceRefs, i) && get(xr.resourceRefs[i]).GetFailed?
  {
    var i := FirstNonBenign(get, xr.resourceRefs);
    assert DecidedAt(get, xr.resourceRefs, i);
  }

  /** Either every lookup lets the scan go on, or some reference is the
      first to stop it. */
  lemma {:induction false} FirstNonBenignExists(get: Getter, refs: seq<ObjectReference>)
    requires exists i :: 0 <= i < |refs| && !Benign(get(refs[i]))
    ensures exists i :: DecidedAt(get, refs, i)
    decreases |refs|
  {
    if Benign(get(refs[0])) {
      FirstNonBenignExists(get, refs[1..]);
      var i :| DecidedAt(get, refs[1..], i);
      assert DecidedAt(get, refs, i + 1);
    } else {
      assert DecidedAt(get, refs, 0);
    }
  }

  /** The position of the first reference that stops the scan. */
  function FirstNonBenign(get: Getter, refs: seq<ObjectReference>): (i: int)
    requires exists i :: 0 <= i < |refs| && !Benign(get(refs[i]))
    ensures DecidedAt(get, refs, i)
  {
    FirstNonBenignExists(get, refs);
    var i :| DecidedAt(get, refs, i);
    i
  }
}

=== FILE: types.dfy ===
/** The data model: the parts of the `apiextensions/v1` Composition API the
    converter and the fallback trigger read or write, and the input document
    of the patch-and-transform composition function that the converter
    produces.

    Sub-documents the modelled code only carries across without looking
    inside (a template's base resource, readiness checks, a combine
    specification, environment sources, ...) are `Raw` values: their content
    is irrelevant, only that they are carried unchanged. */
module Types {
  import opened Wrappers

  /** An opaque, serialized sub-document. */
  type Raw = string

  /** A point in time (`metav1.Time`); `None` in a creation timestamp is the
      zero time. */
  type Timestamp = nat

  // ---------------------------------------------------------------------
  // Object metadata

  datatype TypeMeta = TypeMeta(apiVersion: string, kind: string)

  datatype ObjectMeta = ObjectMeta(
    name: string,
    annotations: map<string, string>,
    creationTimestamp: Option<Timestamp>)

  // ---------------------------------------------------------------------
  // Patch policies

  /** `v1.FromFieldPathPolicy`. */
  datatype FromFieldPathPolicy = FromFieldPathOptional | FromFieldPathRequired

  /** `commonv1.MergeOptions` of the built-in engine: two optional flags. */
  datatype MergeOptions = MergeOptions(appendSlice: Option<bool>, keepMapValues: Option<bool>)

  /** `v1.PatchPolicy` of the built-in engine. */
  datatype PatchPolicy = PatchPolicy(
    fromFieldPath: Option<FromFieldPathPolicy>,
    mergeOptions: Option<MergeOptions>)

  /** `ToFieldPathPolicy` of the patch-and-transform function.  Its default,
      Replace, is written as an absent (nil) policy. */
  datatype ToFieldPathPolicy =
    | MergeObjects
    | MergeObjectsAppendArrays
    | ForceMergeObjects
    | ForceMergeObjectsAppendArrays

  /** `PatchPolicy` of the patch-and-transform function. */
  datatype InputPatchPolicy = InputPatchPolicy(
    fromFieldPath: Option<FromFieldPathPolicy>,
    toFieldPath: Option<ToFieldPathPolicy>)

  // ---------------------------------------------------------------------
  // Transforms

  /** `v1.TransformType`; `TransformTypeUnset` is the empty string. */
  datatype TransformType =
    | TransformTypeUnset
    | TransformTypeMap
    | TransformTypeMatch
    | TransformTypeMath
    | TransformTypeString
    | TransformTypeConvert

  /** `v1.MathTransformType`; `MathTypeUnset` is the empty string. */
  datatype MathTransformType = MathTypeUnset | MathTypeMultiply | MathTypeClampMin | MathTypeClampMax

  /** `v1.StringTransformType`; `StringTypeUnset` is the empty string. */
  datatype StringTransformType =
    | StringTypeUnset
    | StringTypeFormat
    | StringTypeConvert
    | StringTypeTrimPrefix
    | StringTypeTrimSuffix
    | StringTypeRegexp
    | StringTypeJoin

  datatype MathTransform = MathTransform(
    mathType: MathTransformType,
    multiply: Option<int>,
    clampMin: Option<int>,
    clampMax: Option<int>)

  datatype StringRegexp = StringRegexp(pattern: string, group: Option<int>)

  datatype StringTransform = StringTransform(
    stringType: StringTransformType,
    format: Option<string>,
    convert: Option<string>,
    trim: Option<string>,
    regexp: Option<StringRegexp>,
    join: Option<Raw>)

  /** `v1.Transform`.  The map, match and convert variants are carried
      unchanged by the converter and are kept as raw sub-documents. */
  datatype Transform = Transform(
    transformType: TransformType,
    math: Option<MathTransform>,
    str: Option<StringTransform>,
    others: Raw)
  {
    /** The converter dereferences the Math (String) sub-object whenever the
        discriminant is Math (String); a nil sub-object there makes the
        source crash, so the model only accepts transforms where it is set. */
    predicate Dereferenceable() {
      && (transformType == TransformTypeMath ==> math.Some?)
      && (transformType == TransformTypeString ==> str.Some?)
    }
  }

  // ---------------------------------------------------------------------
  // Patches

  /** `v1.PatchType`; `PatchTypeUnset` is the empty string. */
  datatype PatchType =
    | PatchTypeUnset
    | FromCompositeFieldPath
    | FromEnvironmentFieldPath
    | PatchSetPatch
    | ToCompositeFieldPath
    | ToEnvironmentFieldPath
    | CombineFromComposite
    | CombineFromEnvironment
    | CombineToComposite
    | CombineToEnvironment

  /** `v1.Patch`, and also `v1.EnvironmentPatch`, which has the same fields
      except `patchSetName`.  An environment patch is expected to leave it
      `None`; nothing here checks that, and a name is carried along. */
  datatype Patch = Patch(
    patchType: PatchType,
    fromFieldPath: Option<string>,
    toFieldPath: Option<string>,
    patchSetName: Option<string>,
    combine: Option<Raw>,
    transforms: seq<Transform>,
    policy: Option<PatchPolicy>)

  /** Every transform of the patch can be processed without a crash. */
  predicate PatchDereferenceable(p: Patch) {
    forall t <- p.transforms :: t.Dereferenceable()
  }

  predicate PatchesDereferenceable(ps: seq<Patch>) {
    forall p <- ps :: PatchDereferenceable(p)
  }

  datatype PatchSet = PatchSet(name: string, patches: seq<Patch>)

  // ---------------------------------------------------------------------
  // Connection details

  datatype ConnectionDetailType =
    | ConnectionDetailFromConnectionSecretKey
    | ConnectionDetailFromFieldPath
    | ConnectionDetailFromValue

  /** `v1.ConnectionDetail`. */
  datatype ConnectionDetail = ConnectionDetail(
    name: Option<string>,
    detailType: Option<ConnectionDetailType>,
    fromConnectionSecretKey: Option<string>,
    fromFieldPath: Option<string>,
    value: Option<string>)

  // ---------------------------------------------------------------------
  // Resource templates

  /** `v1.ComposedTemplate`. */
  datatype ComposedTemplate = ComposedTemplate(
    name: Option<string>,
    base: Raw,
    patches: seq<Patch>,
    connectionDetails: seq<ConnectionDetail>,
    readinessChecks: seq<Raw>)

  /** A template whose name is unset or empty. */
  predicate Anonymous(t: ComposedTemplate) {
    t.name.None? || t.name.value == ""
  }

  // ---------------------------------------------------------------------
  // Environment

  /** `v1.EnvironmentConfiguration`. */
  datatype EnvironmentConfiguration = EnvironmentConfiguration(
    defaultData: map<string, Raw>,
    environmentConfigs: seq<Raw>,
    policy: Option<Raw>,
    patches: seq<Patch>)

  // ---------------------------------------------------------------------
  // The patch-and-transform function's input document

  /** A patch in the function's format: the legacy patch with the new policy
      beside it (Go's `Patch` and `EnvironmentPatch` of the converter). */
  datatype MigratedPatch = MigratedPatch(patch: Patch, policy: Option<InputPatchPolicy>)

  datatype InputEnvironment = InputEnvironment(patches: seq<MigratedPatch>)

  datatype InputPatchSet = InputPatchSet(name: string, patches: seq<MigratedPatch>)

  /** A resource template in the function's format: the legacy template
      (whose own patches are then left empty) and the migrated patches. */
  datatype InputComposedTemplate = InputComposedTemplate(
    template: ComposedTemplate,
    patches: seq<MigratedPatch>)

  /** The document handed to the function: the `apiVersion`, `kind`,
      `environment`, `patchSets` and `resources` keys. */
  datatype InputDocument = InputDocument(
    apiVersion: string,
    kind: string,
    environment: Option<InputEnvironment>,
    patchSets: seq<InputPatchSet>,
    resources: seq<InputComposedTemplate>)

  // ---------------------------------------------------------------------
  // Compositions

  datatype CompositionMode = ModeResources | ModePipeline

  datatype TypeReference = TypeReference(apiVersion: string, kind: string)

  datatype StoreConfigReference = StoreConfigReference(name: string)

  datatype FunctionReference = FunctionReference(name: string)

  /** A pipeline step's input: either a document of unknown shape, or the
      document the converter builds. */
  datatype StepInput = RawInput(raw: Raw) | PatchAndTransformInput(document: InputDocument)

  datatype PipelineStep = PipelineStep(
    step: string,
    functionRef: FunctionReference,
    input: Option<StepInput>)

  /** `v1.CompositionSpec`; a revision's spec has the same shape. */
  datatype CompositionSpec = CompositionSpec(
    compositeTypeRef: TypeReference,
    mode: Option<CompositionMode>,
    patchSets: seq<PatchSet>,
    environment: Option<EnvironmentConfiguration>,
    resources: seq<ComposedTemplate>,
    pipeline: seq<PipelineStep>,
    writeConnectionSecretsToNamespace: Option<string>,
    publishConnectionDetailsWithStoreConfigRef: Option<StoreConfigReference>)

  datatype Composition = Composition(typeMeta: TypeMeta, meta: ObjectMeta, spec: CompositionSpec)

  /** A composition that already runs a function pipeline. */
  predicate InPipelineMode(c: Composition) {
    c.spec.mode == Some(ModePipeline)
  }

  /** The modes are exclusive: a pipeline-mode composition carries no
      legacy patch sets or resource templates. */
  predicate ModeExclusive(c: Composition) {
    InPipelineMode(c) ==> c.spec.patchSets == [] && c.spec.resources == []
  }
}

=== FILE: validation_mode.dfy ===
/** `Composition.GetValidationMode`: reads the schema-aware validation mode
    from a composition's annotation.  No annotation means the default,
    Loose; a recognised value is that mode; anything else is an error naming
    the value, and comes with the empty mode rather than a default. */
module ValidationMode {
  import opened Wrappers
  import opened Errors
  import opened Types

  const CompositionValidationModeAnnotation: string := "crossplane.io/composition-schema-aware-validation-mode"

  /** `CompositionValidationMode`; `ModeUnset` is Go's zero value "". */
  datatype CompositionValidationMode = ModeUnset | Loose | Strict

  const DefaultCompositionValidationMode: CompositionValidationMode := Loose

  /** The annotation value that spells a mode (matched case-sensitively). */
  function ModeValue(m: CompositionValidationMode): string {
    match m
    case ModeUnset => ""
    case Loose => "loose"
    case Strict => "strict"
  }

  /** A value the annotation may hold. */
  predicate Recognised(value: string) {
    exists m :: m != ModeUnset && ModeValue(m) == value
  }

  datatype ValidationModeOutcome = ValidationModeOutcome(mode: CompositionValidationMode, err: Option<Error>)

  function GetValidationMode(c: Composition): (r: ValidationModeOutcome)
    ensures CompositionValidationModeAnnotation !in c.meta.annotations ==>
      r == ValidationModeOutcome(DefaultCompositionValidationMode, None)
    ensures r.err.None? ==> r.mode != ModeUnset
    ensures CompositionValidationModeAnnotation in c.meta.annotations ==>
      var value := c.meta.annotations[CompositionValidationModeAnnotation];
      && (r.err.None? <==> Recognised(value))
      && (r.err.None? ==> ModeValue(r.mode) == value)
      && (r.err.Some? ==> r == ValidationModeOutcome(ModeUnset, Some(InvalidValidationMode(value))))
  {
    if CompositionValidationModeAnnotation !in c.meta.annotations
    then ValidationModeOutcome(DefaultCompositionValidationMode, None)
    else
      var value := c.meta.annotations[CompositionValidationModeAnnotation];
      if value == ModeValue(Strict) then ValidationModeOutcome(Strict, None)
      else if value == ModeValue(Loose) then ValidationModeOutcome(Loose, None)
      else ValidationModeOutcome(ModeUnset, Some(InvalidValidationMode(value)))
  }

  /** The composition annotated with a mode's own spelling. */
  function Annotate(c: Composition, m: CompositionValidationMode): (c': Composition)
    ensures c'.meta.annotations == c.meta.annotations[CompositionValidationModeAnnotation := ModeValue(m)]
  {
    c.(meta := c.meta.(annotations := c.meta.annotations[CompositionValidationModeAnnotation := ModeValue(m)]))
  }

  /** Writing a mode into the annotation and reading it back gives that
      mode without error. */
  lemma AnnotateThenRead(c: Composition, m: CompositionValidationMode)
    requires m != ModeUnset
    ensures GetValidationMode(Annotate(c, m)) == ValidationModeOutcome(m, None)
  {
  }
}

=== FILE: wrappers.dfy ===
/** Optional values and two-outcome results, standing in for Go's nil
    pointers and `(value, error)` return pairs. */
module Wrappers {

  /** A Go pointer that may be nil: `None` is nil, `Some(v)` points at `v`. */
  datatype Option<+T> = None | Some(value: T) {

    /** The pointed-to value, or `default` when nil. */
    function GetOr(default: T): T {
      match this
      case Some(v) => v
      case None => default
    }
  }

  /** The result of a Go function returning `(*T, error)` where exactly one
      of the two is non-nil. */
  datatype Result<+R, +E> = Success(value: R) | Failure(error: E)
}
